=== FILE: README.md ===
# Test instrumentation harness (SonarQube API and UI suites)

A Dafny model of the pytest instrumentation layer of a SonarQube test suite: the two
`conftest.py` files that wrap HTTP calls and Chrome sessions and put evidence into an
Allure report. The model covers:

- configuration resolution: the base URL (CLI option, then `BASE_URL`, then
  `http://localhost:9000`, empty counting as absent), the credential defaults, the
  browser and headless resolution;
- the recording HTTP session `ApiSessionWrapper` as a class. It joins a path to the
  base URL, forwards the call to the transport and returns the answer unchanged. It
  overwrites `lastResponse` and attaches one JSON record per answered call. Text
  bodies in the record are truncated at 10 000 characters plus `...`;
- the Chrome driver fixture: the browser check, the launch arguments, error
  wrapping, and teardown that swallows a failing `quit`;
- the best-effort capture of the browser state: screenshot, page source,
  URL/title and console log;
- the `environment.properties` manifests, including the branch derivation and the
  allow-lists, written by a loop;
- the per-test parameters and labels;
- both failure hooks.

The outside world enters as parameters:
- the network is a `Transport` function returning a `Result`;
- starting Chrome is a `Launcher`;
- a running browser is a `Driver` value, which gives the outcome of reading each
  of its properties;
- the Allure report is a `Report` object with append-only `attachments` and
  `publications` and two acceptance oracles. An item the sink refuses stands for
  an `allure` call that raised and was swallowed;
- whether the results file can be written is a boolean;
- `sys.version` is a string parameter;
- the truth value of a `requests` response is an abstract predicate `truthy`.

Modules: `Wrappers` (Option/Result), `Strings` (`rstrip`, `split('/')[-1]`, ASCII
`lower`, `str(int)`), `Configuration` (environment lookups, base URL), `Evidence`
(records, attachments, the report sink), `RunContext` (manifest lines, allow-lists,
label publication), `ApiHarness` (API_Testing/conftest.py), `UiHarness`
(UI_Testing/conftest.py).

Python's two lookup forms are kept apart:
- `os.environ.get(k, d)` (`GetEnv`) replaces only an unset variable. So `API_USER=""`
  gives an empty user, and an empty `CI` is written as `CI=`.
- `x or y` (`OrElse`, `IsSet`) also skips an empty value.

Behaviour of the code worth noting:
- Relative-path joining does not collapse slashes. A path beginning with `//` keeps
  both slashes (`DoubleSlashIsKept`). Any path that merely begins with the letters
  `http` is used as a full URL (`ResolveUrl`).
- Start-up failures are not split into "driver not found" and "browser crashed".
  Every failure gets one fixed prefix followed by the original message.
- `--browser` has the default `chrome`, so `BROWSER` is read only when the option is
  passed as an empty string (`Browser`).
- The headless switch is `--headless=new`. The launch arguments always disable the
  sandbox and `/dev/shm`, whether or not headless is set.
- The API manifest writes `GITHUB_REF` whole. The UI manifest keeps only its last
  `/` segment.

## Model

| member | source | states |
|---|---|---|
| Configuration.BaseUrl | API_Testing/conftest.py:18-28 | never empty; CLI value if non-empty, else `BASE_URL` if non-empty, else `http://localhost:9000` (same rule at UI_Testing/conftest.py:16-23) |
| ApiHarness.Auth | API_Testing/conftest.py:31-36 | user is `API_USER` when set (even empty), else `admin`; password is `API_PASS` when set, else `Mypassword1?` |
| Strings.RStripSlash | API_Testing/conftest.py:47 | result is a prefix of the input, does not end in `/`, and everything removed is `/` |
| ApiHarness.ApiSessionWrapper.constructor | API_Testing/conftest.py:46-49 | base is the given URL with trailing slashes stripped; no last response; session open |
| ApiHarness.ResolveUrl | API_Testing/conftest.py:52 | any path starting with the letters `http` (even a relative one such as `httpchecks`) unchanged; otherwise the URL starts with base + `/`, ends with the path, and has one added `/` only when the path lacks a leading one |
| ApiHarness.JoinHasOneSlash | API_Testing/conftest.py:46-52 | for a path not starting with `http` or `//`, the URL is stripped base + `/` + path without its leading slash, with no slash on either side of the join |
| ApiHarness.DoubleSlashIsKept | API_Testing/conftest.py:52 | for every base, a path starting with `//` is appended as it is: the URL is base + path, so two slashes meet at the join |
| ApiHarness.TruncateText | API_Testing/conftest.py:86 | text of at most 10000 characters kept whole; longer text becomes its first 10000 characters plus `...`, length exactly 10003 |
| ApiHarness.ResponseRecord | API_Testing/conftest.py:73-86 | record holds method, URL, status, params/json/data, headers or `{}`; parsed body and raw text are mutually exclusive, parsed exactly when the body is JSON; raw text is exactly `TruncateText` of the body (unchanged when short, first 10000 characters plus `...` when long) |
| ApiHarness.ResponseAttachment | API_Testing/conftest.py:88-92 | one JSON attachment named `"{method} {url}"` carrying the record |
| ApiHarness.CreateProjectScenario | API_Testing/conftest.py:51-92 | POST `/api/projects/create` on the default base is recorded at `http://localhost:9000/api/projects/create` with status 200 and the parsed body |
| ApiHarness.LastResponseAfter | API_Testing/conftest.py:54 | the last response after a run of calls is the previous one or the answer of one of the calls, and is present once any call has returned |
| ApiHarness.ApiSessionWrapper.Request | API_Testing/conftest.py:51-56 | returns the transport's answer for the resolved URL unchanged; on success sets the last response and appends at most one record; on a raised error changes neither |
| ApiHarness.LastResponseAfterExtend | API_Testing/conftest.py:51-56 | the last response after one more call is the single-call update of the last response before it |
| ApiHarness.LastResponseIsMostRecentSuccess | API_Testing/conftest.py:51-56 | after a run of calls the last response is that of the most recent call that returned |
| ApiHarness.LastResponseSurvivesFailures | API_Testing/conftest.py:53-55 | calls that all raise leave the last response unchanged |
| ApiHarness.LastResponseAfterSuccesses | API_Testing/conftest.py:51-56 | after N calls that all return, the last response is the N-th |
| ApiHarness.ApiSessionWrapper.Get | API_Testing/conftest.py:58-59 | `Request` with method `GET` |
| ApiHarness.ApiSessionWrapper.Post | API_Testing/conftest.py:61-62 | `Request` with method `POST` |
| ApiHarness.ApiSessionWrapper.Put | API_Testing/conftest.py:64-65 | `Request` with method `PUT` |
| ApiHarness.ApiSessionWrapper.Delete | API_Testing/conftest.py:67-68 | `Request` with method `DELETE` |
| ApiHarness.ApiSessionWrapper.AttachResponse | API_Testing/conftest.py:70-95 | never fails; appends exactly the record attachment if the sink accepts it, nothing otherwise |
| ApiHarness.ApiSessionWrapper.Close | API_Testing/conftest.py:110-114 | teardown closes the session; a failing close is swallowed and changes nothing |
| Evidence.Report.Attach | API_Testing/conftest.py:88-95 | the sink appends the attachment iff it accepts it; nothing is ever removed |
| Evidence.Report.Publish | UI_Testing/conftest.py:201-202 | `allure.dynamic.parameter`/`label`: the item is appended iff the sink accepts it, and the result says which |
| Evidence.Report.PublishPair | UI_Testing/conftest.py:200-205 | a refused parameter skips its label; a refused label leaves the parameter published |
| Evidence.Kept | API_Testing/conftest.py:71-95 | best-effort attaching never yields more items than it is given |
| Evidence.KeptSound | UI_Testing/conftest.py:113-148 | only accepted candidates reach the report |
| Evidence.KeptKeepsAccepted | UI_Testing/conftest.py:113-148 | every accepted candidate reaches the report, whatever the sink does with the others |
| Evidence.KeptAll | UI_Testing/conftest.py:113-148 | a sink that accepts everything receives every candidate |
| Evidence.KeptAppend | UI_Testing/conftest.py:113-148 | best-effort steps run one after another keep what each step keeps, in step order |
| RunContext.AllowListed | API_Testing/conftest.py:127-130 | at most one line per allow-listed key |
| RunContext.WriteAllowListed | API_Testing/conftest.py:127-130 | the loop appends exactly the allow-list lines to what was written before |
| RunContext.AllowListedComplete | UI_Testing/conftest.py:179-188 | every allow-listed key with a non-empty value gets its `key=value` line |
| RunContext.AllowListedSound | UI_Testing/conftest.py:179-188 | every line is `key=value` for an allow-listed key with a non-empty value |
| RunContext.AllowListedExactly | UI_Testing/conftest.py:186-188 | an allow-listed key has a line iff its value is non-empty |
| RunContext.AllowListedPrefix | UI_Testing/conftest.py:179-188 | lines come in allow-list order: a prefix of the list yields a prefix of the lines |
| RunContext.LineInjective | API_Testing/conftest.py:130 | `key=value` lines with `=`-free keys determine key and value |
| RunContext.AllowListedAreAssignments | API_Testing/conftest.py:127-130 | every allow-list line contains `=` (it is a `key=value` line) |
| ApiHarness.ApiManifest | API_Testing/conftest.py:117-132 | the API manifest has 4 to 8 lines, each a `key=value` line |
| ApiHarness.ApiManifestShape | API_Testing/conftest.py:117-132 | lines `Test.Framework=Requests+Pytest`, `GIT_BRANCH` (GIT_BRANCH, else GITHUB_REF, else `local`), `CI` (default `false`), `PYTHON_VERSION`, then exactly the allow-list lines for `BASE_URL`/`API_USER`/`API_PASS`/`IMAGE_TAG` in list order, each present iff its value is non-empty; 4 to 8 lines |
| ApiHarness.WriteEnvironment | API_Testing/conftest.py:117-132 | writes exactly the API manifest when the file is writable, nothing otherwise |
| RunContext.Publications | UI_Testing/conftest.py:193-219 | at most a parameter and a label per source |
| RunContext.PublicationsSnoc | UI_Testing/conftest.py:200-217 | the sources are published one after another in list order |
| RunContext.PublicationsSound | UI_Testing/conftest.py:193-219 | each published item is a set variable's value under its source's parameter or label name; absent variables publish nothing |
| RunContext.PublicationsComplete | UI_Testing/conftest.py:193-219 | with an accepting report, every non-empty variable is published as parameter and label |
| RunContext.LabelFollowsParameter | UI_Testing/conftest.py:200-217 | every published label sits right after the parameter of the same source: both carry that source's names and its variable's value |
| ApiHarness.RuntestCall | API_Testing/conftest.py:135-153 | publishes `base_url`/`base_url` then `image_tag`/`image_tag` for the non-empty variables |
| ApiHarness.LastResponseAttachment | API_Testing/conftest.py:166-174 | named `last_api_response_<status>`; JSON with the parsed body when it parses, else TEXT with the full untruncated text |
| Strings.NatToDecimal | API_Testing/conftest.py:174 | `str` of a natural number: non-empty digits without a leading zero |
| Strings.IntRoundTrip | API_Testing/conftest.py:174 | `str` of any integer reads back as that integer |
| ApiHarness.LastResponseNameIdentifiesStatus | API_Testing/conftest.py:174 | equal attachment names imply equal status codes |
| ApiHarness.FailureCandidates | API_Testing/conftest.py:156-178 | at most one attachment, present iff the call phase failed and the session holds a truthy last response |
| ApiHarness.MakeReport | API_Testing/conftest.py:156-178 | never fails; appends exactly the accepted failure candidates |
| UiHarness.SupportedBrowserIsChrome | UI_Testing/conftest.py:61-62 | the check passes exactly for `chrome` in any letter case |
| UiHarness.Browser | UI_Testing/conftest.py:56 | the `--browser` value (default `chrome`) unless it is given as the empty string; only then `BROWSER` (default `chrome`) |
| UiHarness.Headless | UI_Testing/conftest.py:57-59 | headless iff the flag is set or `HEADLESS` spells `true` in any letter case; unset counts as `false` |
| UiHarness.ChromeArguments | UI_Testing/conftest.py:64-69 | starts with `--no-sandbox`, `--disable-dev-shm-usage`; `--headless=new` present iff headless; 2 or 3 arguments |
| UiHarness.AcquireDriver | UI_Testing/conftest.py:47-99 | unsupported browser fails with its message whatever the launcher would do; else the launcher gets the Chrome arguments, and a failure is re-raised as the fixed prefix plus the original message |
| UiHarness.DriverSession.constructor | UI_Testing/conftest.py:101-104 | the test holds the started driver, running |
| UiHarness.DriverSession.Teardown | UI_Testing/conftest.py:106-110 | quit is attempted; a failing quit is swallowed and changes nothing |
| UiHarness.BrowserStateCaptures | UI_Testing/conftest.py:113-148 | none without a driver; at most four, in step order (screenshot, page source, page info, logs), each step at most once; each named step present iff its own reads succeed (logs also non-empty); each attachment is exactly its step's: PNG screenshot bytes, HTML page source, TEXT `URL: {url}\nTitle: {title}`, JSON log entries |
| UiHarness.FailingLogKeepsOtherCaptures | UI_Testing/conftest.py:136-145 | an unreadable console log leaves screenshot, page source and page info in order |
| UiHarness.AttachBrowserState | UI_Testing/conftest.py:113-148 | appends exactly the accepted captures, in step order |
| UiHarness.AttachScreenshot | UI_Testing/conftest.py:117-121 | PNG `screenshot` appended iff taken and accepted |
| UiHarness.AttachPageSource | UI_Testing/conftest.py:123-127 | HTML `page_source` appended iff read and accepted |
| UiHarness.AttachPageInfo | UI_Testing/conftest.py:129-134 | TEXT `page_info` `URL: {url}\nTitle: {title}` appended iff both read and accepted |
| UiHarness.AttachBrowserLogs | UI_Testing/conftest.py:136-145 | entries copied one by one; JSON `browser_logs` appended iff readable, non-empty and accepted |
| Strings.LastSegment | UI_Testing/conftest.py:172 | `split('/')[-1]`: slash-free suffix, preceded by `/` when shorter than the input |
| Strings.LastSegmentAfterSlash | UI_Testing/conftest.py:163-172 | the segment after a final slash-separated part is that part |
| UiHarness.Branch | UI_Testing/conftest.py:163-175 | non-empty `GIT_BRANCH`, else non-empty `GITHUB_HEAD_REF`, else `LastSegment` of a non-empty `GITHUB_REF`, else `local` |
| UiHarness.BranchFromPushedRef | UI_Testing/conftest.py:163-172 | a ref `<prefix>/<last>` with a slash-free `<last>` yields `<last>`: `refs/heads/<name>` gives `<name>` for a slash-free name, and a name with slashes keeps only its last segment (`refs/heads/feature/login` gives `login`) |
| UiHarness.Platform | UI_Testing/conftest.py:158-160 | `CI` or `Local` only |
| UiHarness.PlatformResolution | UI_Testing/conftest.py:158-160 | `CI` iff `CI` spells `true` in any case; unset counts as `false` |
| UiHarness.UiManifestShape | UI_Testing/conftest.py:151-190 | seven fixed lines: `Test.Framework=SonarQube UI Selenium+Pytest`, `CI.Platform`, `Test.Types=UI Automation`, `Tooling=Allure Report`, `GIT_BRANCH`, `CI` (default `false`), `PYTHON_VERSION` (variable if non-empty, else the interpreter version); then exactly the allow-list lines for `BASE_URL`/`SONARQUBE_URL`/`SONARQUBE_USERNAME`/`IMAGE_TAG`/`HEADLESS` in list order, each present iff its value is non-empty |
| UiHarness.WriteEnvironment | UI_Testing/conftest.py:151-190 | writes exactly the UI manifest when the file is writable, nothing otherwise |
| UiHarness.UiManifest | UI_Testing/conftest.py:151-190 | the UI manifest has 7 to 12 lines, each a `key=value` line |
| UiHarness.RuntestCall | UI_Testing/conftest.py:193-219 | publishes `base_url`/`base_url`, `image_tag`/`image_tag`, `sonarqube_url`/`sonarqube` in that order for the non-empty variables |
| UiHarness.FailureCandidates | UI_Testing/conftest.py:222-250 | nothing unless the call phase failed; then the browser captures followed by `traceback` |
| UiHarness.TracebackAlwaysAttached | UI_Testing/conftest.py:245-250 | the traceback reaches an accepting report even when every capture failed |
| UiHarness.EvidenceOnlyForFailedCall | UI_Testing/conftest.py:222-250 | anything the hook attaches comes from a failed call phase, was accepted by the sink, and is the traceback or a genuine capture of the test's driver |
| UiHarness.AcceptingReportGetsAllEvidence | UI_Testing/conftest.py:222-250 | for a failed call and a report that accepts everything, every capture and then the traceback are attached |
| UiHarness.MakeReport | UI_Testing/conftest.py:222-250 | never fails; appends exactly the accepted failure candidates |

## Left out

- Network, browser and file I/O: `requests.Session`, `webdriver.Chrome`,
  `ChromeDriverManager().install()`, `DesiredCapabilities` and the writing of
  `allure-results/environment.properties`. They appear only as oracles (`Transport`,
  `Launcher`, `Driver`, the `writable` flag). A partly written manifest is not modelled.
- Allure internals. `json.dumps` formatting and `default=str` are not modelled;
  records, parsed bodies and log entries stay structured values. A failure while
  building or serialising a record is folded into the sink refusing it.
- `sys.version` is a parameter.
- pytest mechanics: fixture scoping, `hookwrapper`/`yield`, `outcome.get_result()`,
  `pytest_addoption` and storing objects on `request.node`. The hooks are methods
  that take the report and the session or driver directly.
- The driver lookups at UI_Testing/conftest.py:228-237 compute a value that is never
  used and are not modelled.
- `Response.__bool__` of `requests` is the abstract `truthy` parameter.
- UiHarness.Headless, UiHarness.PlatformResolution and
  UiHarness.SupportedBrowserIsChrome use ASCII lower-casing, while Python's `lower`
  is Unicode. They are weaker for non-ASCII input.
- UiHarness.AcquireDriver: the `hasattr(Options(), "add_argument")` test is always
  true for Selenium options, so only `--headless=new` is modelled.
- Concurrency: the harness is single-threaded, and the model is sequential.

=== FILE: api_harness.dfy ===
/** The API test harness: base URL and credential fixtures, the recording
    HTTP session wrapper, the environment manifest, the per-test labels and
    the failure hook that attaches the last response. */
module ApiHarness {
  import opened Wrappers
  import opened Strings
  import opened Configuration
  import opened Evidence
  import opened RunContext

  // ---------------------------------------------------------------- fixtures

  datatype Credentials = Credentials(user: string, password: string)

  const DefaultUser := "admin"
  const DefaultPassword := "Mypassword1?"

  /** The `auth` fixture: `API_USER` and `API_PASS`, each defaulting only when
      unset (a variable set to the empty string gives an empty credential). */
  function Auth(env: Env): (c: Credentials)
    ensures "API_USER" in env ==> c.user == env["API_USER"]
    ensures "API_USER" !in env ==> c.user == DefaultUser
    ensures "API_PASS" in env ==> c.password == env["API_PASS"]
    ensures "API_PASS" !in env ==> c.password == DefaultPassword
  {
    Credentials(GetEnv(env, "API_USER", DefaultUser), GetEnv(env, "API_PASS", DefaultPassword))
  }

  // ------------------------------------------------------- URL and recording

  /** A path starting with `http` is taken as a full URL; any other path is
      appended to the base, with a slash added when the path has none. */
  function ResolveUrl(base: string, path: string): (url: string)
    ensures StartsWith(path, "http") ==> url == path
    ensures !StartsWith(path, "http") ==>
              StartsWith(url, base + "/") && EndsWith(url, path) &&
              |url| == |base| + |path| + (if StartsWith(path, "/") then 0 else 1)
  {
    if StartsWith(path, "http") then path
    else if StartsWith(path, "/") then base + path
    else base + "/" + path
  }

  /** Against a session base (trailing slashes stripped), a relative path
      with at most one leading slash is joined with exactly one slash. */
  lemma JoinHasOneSlash(baseUrl: string, path: string)
    requires !StartsWith(path, "http") && !StartsWith(path, "//")
    ensures var head := RStripSlash(baseUrl);
            var tail := if StartsWith(path, "/") then path[1..] else path;
            ResolveUrl(head, path) == head + "/" + tail &&
            (head == [] || head[|head| - 1] != '/') &&
            (tail == [] || tail[0] != '/')
  {
    var head := RStripSlash(baseUrl);
    if StartsWith(path, "/") {
      assert path == "/" + path[1..];
      if |path| >= 2 {
        assert path[..2] != "//";
      }
    }
  }

  /** A path with a doubled leading slash is appended as it is, so the URL
      has two slashes (or more) where base and path meet. */
  lemma DoubleSlashIsKept(base: string, path: string)
    requires StartsWith(path, "//")
    ensures ResolveUrl(base, path) == base + path
  {
    assert path[0] == '/' && "http"[0] == 'h';
    assert path[..1] == "/";
  }

  const MaxTextLength := 10000
  const Ellipsis := "..."

  /** The response text kept in a record: at most 10000 characters, with
      `...` marking that the rest was cut. */
  function TruncateText(text: string): (r: string)
    ensures |text| <= MaxTextLength ==> r == text
    ensures |text| > MaxTextLength ==>
              |r| == MaxTextLength + |Ellipsis| && r[..MaxTextLength] == text[..MaxTextLength] &&
              EndsWith(r, Ellipsis)
    ensures |r| <= MaxTextLength + |Ellipsis|
  {
    if |text| > MaxTextLength then text[..MaxTextLength] + Ellipsis else text
  }

  /** A response as the transport returns it; `json` is the parsed body,
      `None` when the body is not JSON. */
  datatype Response = Response(statusCode: int, text: string, json: Option<Value>)

  /** The keyword arguments of a call that the wrapper forwards and records. */
  datatype RequestOptions = RequestOptions(
    headers: Option<map<string, string>>,
    params: Option<Value>,
    json: Option<Value>,
    data: Option<Value>,
    auth: Option<Credentials>)

  /** The record built by `_attach_response`. */
  function ResponseRecord(verb: string, url: string, options: RequestOptions, resp: Response): (rec: InteractionRecord)
    ensures rec.verb == verb && rec.url == url && rec.statusCode == resp.statusCode
    ensures rec.requestHeaders == options.headers.GetOr(map[])
    ensures rec.requestParams == options.params && rec.requestJson == options.json && rec.requestData == options.data
    ensures rec.response.Parsed? <==> resp.json.Some?
    ensures rec.response.Parsed? ==> rec.response.value == resp.json.value
    ensures rec.response.Raw? ==> rec.response.text == TruncateText(resp.text)
    ensures rec.response.Raw? ==>
              |rec.response.text| <= MaxTextLength + |Ellipsis| &&
              (|resp.text| <= MaxTextLength ==> rec.response.text == resp.text)
  {
    InteractionRecord(
      verb, url, options.headers.GetOr(map[]), options.params, options.json, options.data, resp.statusCode,
      match resp.json
      case Some(v) => Parsed(v)
      case None => Raw(TruncateText(resp.text)))
  }

  /** The JSON attachment of one call, named after its method and URL. */
  function ResponseAttachment(verb: string, url: string, options: RequestOptions, resp: Response): (a: Attachment)
    ensures a.name == verb + " " + url && a.contentType == JSON
    ensures a.payload == RecordDump(ResponseRecord(verb, url, options, resp))
  {
    Attachment(verb + " " + url, JSON, RecordDump(ResponseRecord(verb, url, options, resp)))
  }

  /** A POST of `/api/projects/create` on a session over the default base URL
      answered with a JSON body is recorded under the joined URL with the
      parsed body. */
  lemma CreateProjectScenario(options: RequestOptions, resp: Response)
    requires resp.statusCode == 200 && resp.json.Some?
    ensures var url := ResolveUrl(RStripSlash(DefaultBaseUrl), "/api/projects/create");
            var a := ResponseAttachment("POST", url, options, resp);
            url == DefaultBaseUrl + "/api/projects/create" &&
            a.name == "POST " + url &&
            a.payload.record.statusCode == 200 && a.payload.record.response == Parsed(resp.json.value)
  {
    var path := "/api/projects/create";
    assert DefaultBaseUrl[|DefaultBaseUrl| - 1] == '0';
    assert RStripSlash(DefaultBaseUrl) == DefaultBaseUrl;
    assert path[0] == '/' && "http"[0] == 'h';
    assert path[..1] == "/";
    assert ResolveUrl(DefaultBaseUrl, path) == DefaultBaseUrl + path;
  }

  /** The network: answers a call to a URL or raises. */
  type Transport = (string, string, RequestOptions) -> Result<Response, string>

  /** The last response held by a session after a run of calls: the most
      recent successful one, or the previous value when every call raised. */
  function LastResponseAfter(prev: Option<Response>, outcomes: seq<Result<Response, string>>): (last: Option<Response>)
    ensures last == prev || (last.Some? && Success(last.value) in outcomes)
    ensures (exists o :: o in outcomes && o.Success?) ==> last.Some?
  {
    if outcomes == [] then prev
    else match outcomes[|outcomes| - 1]
      case Success(r) => Some(r)
      case Failure(_) => LastResponseAfter(prev, outcomes[..|outcomes| - 1])
  }

  /** One more call extends a run: the single-call contract of `Request` composes. */
  lemma LastResponseAfterExtend(prev: Option<Response>, outcomes: seq<Result<Response, string>>, o: Result<Response, string>)
    ensures LastResponseAfter(prev, outcomes + [o]) == LastResponseAfter(LastResponseAfter(prev, outcomes), [o])
  {
    assert (outcomes + [o])[..|outcomes|] == outcomes;
  }

  /** The last response is that of the most recent successful call. */
  lemma {:induction false} LastResponseIsMostRecentSuccess(prev: Option<Response>, outcomes: seq<Result<Response, string>>, k: nat)
    requires k < |outcomes| && outcomes[k].Success?
    requires forall j :: k < j < |outcomes| ==> outcomes[j].Failure?
    ensures LastResponseAfter(prev, outcomes) == Some(outcomes[k].value)
  {
    if k < |outcomes| - 1 {
      var init := outcomes[..|outcomes| - 1];
      assert init[k] == outcomes[k];
      LastResponseIsMostRecentSuccess(prev, init, k);
    }
  }

  /** Calls that raise leave the last response as it was. */
  lemma {:induction false} LastResponseSurvivesFailures(prev: Option<Response>, outcomes: seq<Result<Response, string>>)
    requires forall j :: 0 <= j < |outcomes| ==> outcomes[j].Failure?
    ensures LastResponseAfter(prev, outcomes) == prev
  {
    if outcomes != [] {
      LastResponseSurvivesFailures(prev, outcomes[..|outcomes| - 1]);
    }
  }

  /** After N successful calls the last response is the N-th one. */
  lemma LastResponseAfterSuccesses(prev: Option<Response>, outcomes: seq<Result<Response, string>>)
    requires |outcomes| > 0 && forall j :: 0 <= j < |outcomes| ==> outcomes[j].Success?
    ensures LastResponseAfter(prev, outcomes) == Some(outcomes[|outcomes| - 1].value)
  {
  }

  /** `ApiSessionWrapper`: forwards every call to the transport, remembers the
      last response and attaches one record per answered call to the report. */
  class ApiSessionWrapper {
    const base: string
    const report: Report
    var lastResponse: Option<Response>
    var open: bool

    constructor (baseUrl: string, report: Report)
      ensures base == RStripSlash(baseUrl) && this.report == report
      ensures lastResponse == None && open
    {
      base := RStripSlash(baseUrl);
      this.report := report;
      lastResponse := None;
      open := true;
    }

    /** Issues one call. The transport's answer is returned unchanged; a
        raised error propagates with the session and report untouched. */
    method Request(verb: string, path: string, options: RequestOptions, transport: Transport)
      returns (r: Result<Response, string>)
      modifies this`lastResponse, report`attachments
      ensures r == transport(verb, ResolveUrl(base, path), options)
      ensures lastResponse == LastResponseAfter(old(lastResponse), [r])
      ensures r.Success? ==> lastResponse == Some(r.value)
      ensures r.Failure? ==> lastResponse == old(lastResponse)
      ensures report.attachments == old(report.attachments) +
                (if r.Success? then Kept(report.accepts, [ResponseAttachment(verb, ResolveUrl(base, path), options, r.value)])
                 else [])
    {
      var url := ResolveUrl(base, path);
      r := transport(verb, url, options);
      if r.Failure? {
        return;
      }
      lastResponse := Some(r.value);
      AttachResponse(verb, url, options, r.value);
    }

    method Get(path: string, options: RequestOptions, transport: Transport) returns (r: Result<Response, string>)
      modifies this`lastResponse, report`attachments
      ensures r == transport("GET", ResolveUrl(base, path), options)
      ensures lastResponse == LastResponseAfter(old(lastResponse), [r])
      ensures report.attachments == old(report.attachments) +
                (if r.Success? then Kept(report.accepts, [ResponseAttachment("GET", ResolveUrl(base, path), options, r.value)])
                 else [])
    {
      r := Request("GET", path, options, transport);
    }

    method Post(path: string, options: RequestOptions, transport: Transport) returns (r: Result<Response, string>)
      modifies this`lastResponse, report`attachments
      ensures r == transport("POST", ResolveUrl(base, path), options)
      ensures lastResponse == LastResponseAfter(old(lastResponse), [r])
      ensures report.attachments == old(report.attachments) +
                (if r.Success? then Kept(report.accepts, [ResponseAttachment("POST", ResolveUrl(base, path), options, r.value)])
                 else [])
    {
      r := Request("POST", path, options, transport);
    }

    method Put(path: string, options: RequestOptions, transport: Transport) returns (r: Result<Response, string>)
      modifies this`lastResponse, report`attachments
      ensures r == transport("PUT", ResolveUrl(base, path), options)
      ensures lastResponse == LastResponseAfter(old(lastResponse), [r])
      ensures report.attachments == old(report.attachments) +
                (if r.Success? then Kept(report.accepts, [ResponseAttachment("PUT", ResolveUrl(base, path), options, r.value)])
                 else [])
    {
      r := Request("PUT", path, options, transport);
    }

    method Delete(path: string, options: RequestOptions, transport: Transport) returns (r: Result<Response, string>)
      modifies this`lastResponse, report`attachments
      ensures r == transport("DELETE", ResolveUrl(base, path), options)
      ensures lastResponse == LastResponseAfter(old(lastResponse), [r])
      ensures report.attachments == old(report.attachments) +
                (if r.Success? then Kept(report.accepts, [ResponseAttachment("DELETE", ResolveUrl(base, path), options, r.value)])
                 else [])
    {
      r := Request("DELETE", path, options, transport);
    }

    /** Best effort: at most one attachment, and a refusal by the sink is swallowed. */
    method AttachResponse(verb: string, url: string, options: RequestOptions, resp: Response)
      modifies report`attachments
      ensures report.attachments == old(report.attachments) + Kept(report.accepts, [ResponseAttachment(verb, url, options, resp)])
    {
      var attached := report.Attach(ResponseAttachment(verb, url, options, resp));
    }

    /** Teardown of the `api` fixture: closes the network session; a failing
        close is swallowed and leaves the session as it was. */
    method Close(closeSucceeds: bool)
      modifies this`open
      ensures open == (old(open) && !closeSucceeds)
    {
      if closeSucceeds {
        open := false;
      }
    }
  }

  // ------------------------------------------------------------ manifest

  const ApiAllowList := ["BASE_URL", "API_USER", "API_PASS", "IMAGE_TAG"]

  /** The manifest of an API run, line by line. */
  function ApiManifest(env: Env, pythonVersion: string): (lines: seq<string>)
    ensures 4 <= |lines| <= 4 + |ApiAllowList|
    ensures forall line :: line in lines ==> '=' in line
  {
    AllowListedAreAssignments(ApiAllowList, env);
    [ "Test.Framework=Requests+Pytest",
      Line("GIT_BRANCH", GetEnv(env, "GIT_BRANCH", GetEnv(env, "GITHUB_REF", "local"))),
      Line("CI", GetEnv(env, "CI", "false")),
      Line("PYTHON_VERSION", OrElse(Lookup(env, "PYTHON_VERSION"), pythonVersion)) ]
    + AllowListed(ApiAllowList, env)
  }

  /** Four fixed lines come first, then one line per set allow-listed
      variable, each exactly when its value is non-empty. */
  lemma ApiManifestShape(env: Env, pythonVersion: string, key: string)
    requires key in ApiAllowList
    ensures var lines := ApiManifest(env, pythonVersion);
            4 <= |lines| <= 8 &&
            lines[0] == "Test.Framework=Requests+Pytest" &&
            lines[1] == Line("GIT_BRANCH", GetEnv(env, "GIT_BRANCH", GetEnv(env, "GITHUB_REF", "local"))) &&
            lines[2] == Line("CI", GetEnv(env, "CI", "false")) &&
            lines[3] == Line("PYTHON_VERSION", OrElse(Lookup(env, "PYTHON_VERSION"), pythonVersion)) &&
            lines[4..] == AllowListed(ApiAllowList, env) &&
            (Line(key, GetEnv(env, key, "")) in lines[4..] <==> IsSet(env, key))
  {
    var lines := ApiManifest(env, pythonVersion);
    assert lines[4..] == AllowListed(ApiAllowList, env);
    AllowListedExactly(ApiAllowList, env, key);
  }

  /** `pytest_configure`: writes the manifest; when the results directory or
      file cannot be written the run goes on without one. */
  method WriteEnvironment(env: Env, pythonVersion: string, writable: bool) returns (manifest: Option<seq<string>>)
    ensures writable ==> manifest == Some(ApiManifest(env, pythonVersion))
    ensures !writable ==> manifest == None
  {
    if !writable {
      return None;
    }
    var lines := ["Test.Framework=Requests+Pytest"];
    lines := lines + [Line("GIT_BRANCH", GetEnv(env, "GIT_BRANCH", GetEnv(env, "GITHUB_REF", "local")))];
    lines := lines + [Line("CI", GetEnv(env, "CI", "false"))];
    lines := lines + [Line("PYTHON_VERSION", OrElse(Lookup(env, "PYTHON_VERSION"), pythonVersion))];
    assert lines == ApiManifest(env, pythonVersion)[..4];
    lines := WriteAllowListed(lines, ApiAllowList, env);
    manifest := Some(lines);
  }

  // ------------------------------------------------------------- labels

  const ApiLabelSources := [
    LabelSource("BASE_URL", "base_url", "base_url"),
    LabelSource("IMAGE_TAG", "image_tag", "image_tag")]

  /** `pytest_runtest_call`: publishes `BASE_URL` and `IMAGE_TAG` when set. */
  method RuntestCall(env: Env, report: Report)
    modifies report`publications
    ensures report.publications == old(report.publications) + Publications(ApiLabelSources, env, report.publishes)
  {
    var base := Lookup(env, "BASE_URL");
    var image := Lookup(env, "IMAGE_TAG");
    ghost var before := report.publications;
    if Truthy(base) {
      report.PublishPair(Parameter("base_url", base.value), Label("base_url", base.value));
    }
    assert report.publications == before + Publications(ApiLabelSources[..1], env, report.publishes);
    if Truthy(image) {
      report.PublishPair(Parameter("image_tag", image.value), Label("image_tag", image.value));
    }
    PublicationsSnoc(ApiLabelSources[..1], env, report.publishes, ApiLabelSources[1]);
    assert ApiLabelSources[..1] + [ApiLabelSources[1]] == ApiLabelSources;
  }

  // ------------------------------------------------------- failure hook

  /** The attachment of the last response: JSON when the body parses, the
      full (untruncated) text otherwise, named after the status code. */
  function LastResponseAttachment(resp: Response): (a: Attachment)
    ensures a.name == "last_api_response_" + IntToString(resp.statusCode)
    ensures resp.json.Some? ==> a.contentType == JSON && a.payload == ValueDump(resp.json.value)
    ensures resp.json.None? ==> a.contentType == TEXT && a.payload == Chars(resp.text)
  {
    var name := "last_api_response_" + IntToString(resp.statusCode);
    match resp.json
    case Some(v) => Attachment(name, JSON, ValueDump(v))
    case None => Attachment(name, TEXT, Chars(resp.text))
  }

  /** Responses with different status codes are attached under different names. */
  lemma LastResponseNameIdentifiesStatus(a: Response, b: Response)
    requires LastResponseAttachment(a).name == LastResponseAttachment(b).name
    ensures a.statusCode == b.statusCode
  {
    var prefix := "last_api_response_";
    var na, nb := LastResponseAttachment(a).name, LastResponseAttachment(b).name;
    assert IntToString(a.statusCode) == na[|prefix|..] == nb[|prefix|..] == IntToString(b.statusCode);
    IntRoundTrip(a.statusCode);
    IntRoundTrip(b.statusCode);
  }

  /** What the failure hook tries to attach: the last response, only for a
      failure of the test body, only when a session holds a truthy response. */
  function FailureCandidates(rep: TestReport, last: Option<Response>, truthy: Response -> bool): (r: seq<Attachment>)
    ensures |r| <= 1
    ensures r != [] <==> IsCallFailure(rep) && last.Some? && truthy(last.value)
    ensures r != [] ==> r[0] == LastResponseAttachment(last.value)
  {
    if IsCallFailure(rep) && last.Some? && truthy(last.value) then [LastResponseAttachment(last.value)] else []
  }

  /** `pytest_runtest_makereport`; `session` is null for a test without the
      `api` fixture, and `truthy` is the response's own truth value. */
  method MakeReport(rep: TestReport, session: ApiSessionWrapper?, truthy: Response -> bool, report: Report)
    modifies report`attachments
    ensures report.attachments == old(report.attachments) +
              Kept(report.accepts, FailureCandidates(rep, if session == null then None else session.lastResponse, truthy))
  {
    if rep.when == Call && rep.failed {
      if session != null && session.lastResponse.Some? && truthy(session.lastResponse.value) {
        var attached := report.Attach(LastResponseAttachment(session.lastResponse.value));
      }
    }
  }
}

=== FILE: configuration.dfy ===
/** Configuration resolution: command-line options, environment variables and
    defaults. The process environment is a map from variable names to values;
    a name that is not in the map is unset. */
module Configuration {
  import opened Wrappers

  type Env = map<string, string>

  /** `os.environ.get(key)`: `None` when the variable is unset. */
  function Lookup(env: Env, key: string): Option<string> {
    if key in env then Some(env[key]) else None
  }

  /** `os.environ.get(key, default)`: the default replaces an unset variable
      only; a variable set to the empty string stays empty. */
  function GetEnv(env: Env, key: string, default: string): string {
    Lookup(env, key).GetOr(default)
  }

  /** Python's truthiness of an optional string: set and non-empty. */
  predicate Truthy(v: Option<string>) {
    v.Some? && v.value != ""
  }

  /** The variable is set to a non-empty value. */
  predicate IsSet(env: Env, key: string) {
    Truthy(Lookup(env, key))
  }

  /** Python's `a or b` for an optional string `a`. */
  function OrElse(a: Option<string>, b: string): string {
    if Truthy(a) then a.value else b
  }

  const DefaultBaseUrl := "http://localhost:9000"

  /** The base URL: the `--base-url` option, else `BASE_URL`, else the
      default; an empty value counts as absent at every step. */
  function BaseUrl(cli: Option<string>, env: Env): (r: string)
    ensures r != ""
    ensures Truthy(cli) ==> r == cli.value
    ensures !Truthy(cli) && IsSet(env, "BASE_URL") ==> r == env["BASE_URL"]
    ensures !Truthy(cli) && !IsSet(env, "BASE_URL") ==> r == DefaultBaseUrl
  {
    OrElse(cli, OrElse(Lookup(env, "BASE_URL"), DefaultBaseUrl))
  }
}

=== FILE: evidence.dfy ===
/** The evidence the harness produces and the report sink that receives it:
    named, typed attachments and per-test parameters and labels. */
module Evidence {
  import opened Wrappers

  /** A structured (JSON) value, kept opaque: only its serialised form matters here. */
  datatype Value = Value(serialised: string)

  /** The four attachment types the report accepts. */
  datatype ContentType = JSON | TEXT | HTML | PNG

  /** A response body: parsed as JSON, or the raw text when it does not parse. */
  datatype ResponseBody = Parsed(value: Value) | Raw(text: string)

  /** What one HTTP call leaves behind in the report. */
  datatype InteractionRecord = InteractionRecord(
    verb: string,
    url: string,
    requestHeaders: map<string, string>,
    requestParams: Option<Value>,
    requestJson: Option<Value>,
    requestData: Option<Value>,
    statusCode: int,
    response: ResponseBody)

  /** One entry of the browser console log, as the driver reports it. */
  datatype LogEntry = LogEntry(fields: map<string, string>)

  datatype Payload =
    | RecordDump(record: InteractionRecord)
    | ValueDump(value: Value)
    | LogDump(entries: seq<LogEntry>)
    | Chars(text: string)
    | Bytes(data: seq<bv8>)

  datatype Attachment = Attachment(name: string, contentType: ContentType, payload: Payload)

  /** A report parameter or label published for the running test. */
  datatype Publication = Parameter(name: string, value: string) | Label(name: string, value: string)

  /** The phase of a test that a report describes. */
  datatype Phase = Setup | Call | Teardown

  /** What the test runner reports about one phase of one test. */
  datatype TestReport = TestReport(when: Phase, failed: bool, longReprText: string)

  /** The failure hooks enrich only a failure of the test body itself. */
  predicate IsCallFailure(rep: TestReport) {
    rep.when == Call && rep.failed
  }

  /** The attachments that reach the report when the sink accepts exactly
      those satisfying `accepts`: the others are dropped, order is kept. */
  function Kept(accepts: Attachment -> bool, candidates: seq<Attachment>): (r: seq<Attachment>)
    ensures |r| <= |candidates|
  {
    if candidates == [] then []
    else (if accepts(candidates[0]) then [candidates[0]] else []) + Kept(accepts, candidates[1..])
  }

  lemma {:induction false} KeptAppend(accepts: Attachment -> bool, s: seq<Attachment>, t: seq<Attachment>)
    ensures Kept(accepts, s + t) == Kept(accepts, s) + Kept(accepts, t)
  {
    if s != [] {
      assert (s + t)[1..] == s[1..] + t;
      KeptAppend(accepts, s[1..], t);
    } else {
      assert s + t == t;
    }
  }

  /** Only accepted candidates reach the report. */
  lemma {:induction false} KeptSound(accepts: Attachment -> bool, s: seq<Attachment>, a: Attachment)
    requires a in Kept(accepts, s)
    ensures a in s && accepts(a)
  {
    if !(accepts(s[0]) && a == s[0]) {
      KeptSound(accepts, s[1..], a);
    }
  }

  /** Every accepted candidate reaches the report. */
  lemma {:induction false} KeptKeepsAccepted(accepts: Attachment -> bool, s: seq<Attachment>, a: Attachment)
    requires a in s && accepts(a)
    ensures a in Kept(accepts, s)
  {
    if s[0] != a {
      KeptKeepsAccepted(accepts, s[1..], a);
    }
  }

  /** When the sink accepts everything, nothing is lost. */
  lemma {:induction false} KeptAll(accepts: Attachment -> bool, s: seq<Attachment>)
    requires forall a :: a in s ==> accepts(a)
    ensures Kept(accepts, s) == s
  {
    if s != [] {
      KeptAll(accepts, s[1..]);
    }
  }

  /** What reaches the report when a parameter and then its label are
      published inside one best-effort step: a refused parameter skips the
      label, a refused label leaves the parameter in place. */
  function PairDelivered(publishes: Publication -> bool, parameter: Publication, tag: Publication): seq<Publication> {
    if !publishes(parameter) then []
    else if !publishes(tag) then [parameter]
    else [parameter, tag]
  }

  /** The report of the running test. The sink may refuse any item (the
      oracles `accepts` and `publishes`); a refusal is swallowed by the
      caller and the item is simply absent. Items are only ever appended. */
  class Report {
    const accepts: Attachment -> bool
    const publishes: Publication -> bool
    var attachments: seq<Attachment>
    var publications: seq<Publication>

    constructor (accepts: Attachment -> bool, publishes: Publication -> bool)
      ensures this.accepts == accepts && this.publishes == publishes
      ensures attachments == [] && publications == []
    {
      this.accepts := accepts;
      this.publishes := publishes;
      attachments := [];
      publications := [];
    }

    /** `allure.attach`: `ok` is false when the sink raised. */
    method Attach(a: Attachment) returns (ok: bool)
      modifies this`attachments
      ensures ok == accepts(a)
      ensures attachments == old(attachments) + Kept(accepts, [a])
    {
      ok := accepts(a);
      if ok {
        attachments := attachments + [a];
      }
    }

    /** `allure.dynamic.parameter` or `allure.dynamic.label`. */
    method Publish(p: Publication) returns (ok: bool)
      modifies this`publications
      ensures ok == publishes(p)
      ensures publications == old(publications) + (if ok then [p] else [])
    {
      ok := publishes(p);
      if ok {
        publications := publications + [p];
      }
    }

    /** One `try` block publishing a parameter and then its label. */
    method PublishPair(parameter: Publication, tag: Publication)
      modifies this`publications
      ensures publications == old(publications) + PairDelivered(publishes, parameter, tag)
    {
      var ok := Publish(parameter);
      if ok {
        ok := Publish(tag);
      }
    }
  }
}

=== FILE: run_context.dfy ===
/** The run context written to the report: the `key=value` environment
    manifest and the per-test parameters and labels taken from the environment. */
module RunContext {
  import opened Configuration
  import opened Evidence

  /** One manifest line, without its line terminator. */
  function Line(key: string, value: string): string {
    key + "=" + value
  }

  /** Two manifest lines with `=`-free keys are equal only for equal keys and values. */
  lemma LineInjective(k1: string, v1: string, k2: string, v2: string)
    requires '=' !in k1 && '=' !in k2
    requires Line(k1, v1) == Line(k2, v2)
    ensures k1 == k2 && v1 == v2
  {
    var l := Line(k1, v1);
    assert l[|k1|] == '=' && l[|k2|] == '=';
    assert |k1| == |k2|;
    assert k1 == l[..|k1|] == k2;
    assert v1 == l[|k1| + 1..] == v2;
  }

  /** The lines written for an allow-list: one per key whose variable is set
      to a non-empty value, in allow-list order. */
  function AllowListed(keys: seq<string>, env: Env): (r: seq<string>)
    ensures |r| <= |keys|
  {
    if keys == [] then []
    else
      var key := keys[|keys| - 1];
      AllowListed(keys[..|keys| - 1], env) + (if IsSet(env, key) then [Line(key, env[key])] else [])
  }

  /** Every set allow-listed variable gets its line. */
  lemma {:induction false} AllowListedComplete(keys: seq<string>, env: Env, key: string)
    requires key in keys && IsSet(env, key)
    ensures Line(key, env[key]) in AllowListed(keys, env)
  {
    if keys[|keys| - 1] != key {
      AllowListedComplete(keys[..|keys| - 1], env, key);
    }
  }

  /** Every line comes from a set allow-listed variable. */
  lemma {:induction false} AllowListedSound(keys: seq<string>, env: Env, line: string)
    requires line in AllowListed(keys, env)
    ensures exists key :: key in keys && IsSet(env, key) && line == Line(key, env[key])
  {
    var init := keys[..|keys| - 1];
    var key := keys[|keys| - 1];
    if line in AllowListed(init, env) {
      AllowListedSound(init, env, line);
      var k :| k in init && IsSet(env, k) && line == Line(k, env[k]);
      assert k in keys;
    } else {
      assert IsSet(env, key) && line == Line(key, env[key]);
    }
  }

  /** For `=`-free keys: a key has a line exactly when its variable is set. */
  lemma AllowListedExactly(keys: seq<string>, env: Env, key: string)
    requires forall k :: k in keys ==> '=' !in k
    requires key in keys
    ensures Line(key, GetEnv(env, key, "")) in AllowListed(keys, env) <==> IsSet(env, key)
  {
    if IsSet(env, key) {
      AllowListedComplete(keys, env, key);
    }
    if Line(key, GetEnv(env, key, "")) in AllowListed(keys, env) {
      AllowListedSound(keys, env, Line(key, GetEnv(env, key, "")));
      var k :| k in keys && IsSet(env, k) && Line(key, GetEnv(env, key, "")) == Line(k, env[k]);
      LineInjective(key, GetEnv(env, key, ""), k, env[k]);
    }
  }

  /** Lines for earlier keys come first: the lines of a prefix of the
      allow-list are a prefix of the lines of the whole list. */
  lemma {:induction false} AllowListedPrefix(keys: seq<string>, env: Env, n: nat)
    requires n <= |keys|
    ensures AllowListed(keys[..n], env) <= AllowListed(keys, env)
  {
    if n < |keys| {
      assert keys[..|keys| - 1][..n] == keys[..n];
      AllowListedPrefix(keys[..|keys| - 1], env, n);
    } else {
      assert keys[..n] == keys;
    }
  }

  /** The `for key in [...]` loop of the manifest writers: appends the line of
      each allow-listed variable that is set to a non-empty value. */
  method WriteAllowListed(lines: seq<string>, keys: seq<string>, env: Env) returns (out: seq<string>)
    ensures out == lines + AllowListed(keys, env)
  {
    out := lines;
    for i := 0 to |keys|
      invariant out == lines + AllowListed(keys[..i], env)
    {
      var key := keys[i];
      assert keys[..i + 1][..i] == keys[..i];
      if key in env && env[key] != "" {
        out := out + [Line(key, env[key])];
      }
    }
    assert keys[..|keys|] == keys;
  }

  /** Every allow-list line is a `key=value` line. */
  lemma AllowListedAreAssignments(keys: seq<string>, env: Env)
    ensures forall line :: line in AllowListed(keys, env) ==> '=' in line
  {
    forall line | line in AllowListed(keys, env)
      ensures '=' in line
    {
      AllowListedSound(keys, env, line);
      var key :| key in keys && IsSet(env, key) && line == Line(key, env[key]);
      assert line[|key|] == '=';
    }
  }

  /** An environment variable published as a report parameter and a label,
      and the names it is published under. */
  datatype LabelSource = LabelSource(variable: string, parameter: string, tag: string)

  /** What one source contributes: nothing when its variable is unset or
      empty, otherwise its parameter and label as far as the report accepts them. */
  function Delivered(s: LabelSource, env: Env, publishes: Publication -> bool): seq<Publication> {
    if IsSet(env, s.variable)
    then PairDelivered(publishes, Parameter(s.parameter, env[s.variable]), Label(s.tag, env[s.variable]))
    else []
  }

  /** The parameters and labels that reach the report, one best-effort step per source. */
  function Publications(sources: seq<LabelSource>, env: Env, publishes: Publication -> bool): (r: seq<Publication>)
    ensures |r| <= 2 * |sources|
  {
    if sources == [] then []
    else Delivered(sources[0], env, publishes) + Publications(sources[1..], env, publishes)
  }

  /** Publishing one more source appends what that source delivers. */
  lemma {:induction false} PublicationsSnoc(sources: seq<LabelSource>, env: Env, publishes: Publication -> bool, s: LabelSource)
    ensures Publications(sources + [s], env, publishes) == Publications(sources, env, publishes) + Delivered(s, env, publishes)
  {
    if sources == [] {
      assert [s][1..] == [];
    } else {
      assert (sources + [s])[1..] == sources[1..] + [s];
      PublicationsSnoc(sources[1..], env, publishes, s);
    }
  }

  /** Three sources publish what each delivers, one after another. */
  lemma PublicationsOfThree(a: LabelSource, b: LabelSource, c: LabelSource, env: Env, publishes: Publication -> bool)
    ensures Publications([a, b, c], env, publishes) ==
            Delivered(a, env, publishes) + Delivered(b, env, publishes) + Delivered(c, env, publishes)
  {
    assert [a, b, c][1..] == [b, c];
    assert [b, c][1..] == [c];
    assert [c][1..] == [];
    assert Publications([c], env, publishes) == Delivered(c, env, publishes) + Publications([], env, publishes);
    assert Publications([b, c], env, publishes) == Delivered(b, env, publishes) + Publications([c], env, publishes);
  }

  /** Nothing is published for an unset or empty variable: each item carries
      the value of a set source variable under that source's name. */
  lemma {:induction false} PublicationsSound(sources: seq<LabelSource>, env: Env, publishes: Publication -> bool, p: Publication)
    requires p in Publications(sources, env, publishes)
    ensures exists s :: s in sources && IsSet(env, s.variable) && p.value == env[s.variable] &&
                        (p == Parameter(s.parameter, p.value) || p == Label(s.tag, p.value))
  {
    var s := sources[0];
    var rest := Publications(sources[1..], env, publishes);
    if p in rest {
      PublicationsSound(sources[1..], env, publishes, p);
      var s' :| s' in sources[1..] && IsSet(env, s'.variable) && p.value == env[s'.variable] &&
                (p == Parameter(s'.parameter, p.value) || p == Label(s'.tag, p.value));
      assert s' in sources;
    } else {
      assert IsSet(env, s.variable);
    }
  }

  /** With a report that accepts everything, every set variable is published
      both as a parameter and as a label. */
  lemma {:induction false} PublicationsComplete(sources: seq<LabelSource>, env: Env, publishes: Publication -> bool, k: nat)
    requires forall p :: publishes(p)
    requires k < |sources| && IsSet(env, sources[k].variable)
    ensures Parameter(sources[k].parameter, env[sources[k].variable]) in Publications(sources, env, publishes)
    ensures Label(sources[k].tag, env[sources[k].variable]) in Publications(sources, env, publishes)
  {
    if k > 0 {
      PublicationsComplete(sources[1..], env, publishes, k - 1);
    }
  }

  /** A label is never published without its own source's parameter, with
      the same value, just before it. */
  lemma {:induction false} LabelFollowsParameter(sources: seq<LabelSource>, env: Env, publishes: Publication -> bool, i: nat)
    requires i < |Publications(sources, env, publishes)|
    requires Publications(sources, env, publishes)[i].Label?
    ensures i > 0
    ensures exists s :: s in sources && IsSet(env, s.variable) &&
                        Publications(sources, env, publishes)[i - 1] == Parameter(s.parameter, env[s.variable]) &&
                        Publications(sources, env, publishes)[i] == Label(s.tag, env[s.variable])
  {
    var all := Publications(sources, env, publishes);
    var head := Delivered(sources[0], env, publishes);
    var rest := Publications(sources[1..], env, publishes);
    assert all == head + rest;
    if i >= |head| {
      LabelFollowsParameter(sources[1..], env, publishes, i - |head|);
      var s :| s in sources[1..] && IsSet(env, s.variable) &&
               rest[i - |head| - 1] == Parameter(s.parameter, env[s.variable]) &&
               rest[i - |head|] == Label(s.tag, env[s.variable]);
      assert all[i - 1] == rest[i - |head| - 1];
      assert s in sources;
    } else {
      var s := sources[0];
      assert IsSet(env, s.variable);
      assert all[i - 1] == Parameter(s.parameter, env[s.variable]);
    }
  }
}

=== FILE: strings.dfy ===
/** The string operations of Python that the harness relies on, over `seq<char>`. */
module Strings {

  predicate StartsWith(s: string, prefix: string) {
    |prefix| <= |s| && s[..|prefix|] == prefix
  }

  predicate EndsWith(s: string, suffix: string) {
    |suffix| <= |s| && s[|s| - |suffix|..] == suffix
  }

  /** `s.rstrip("/")`: every trailing slash is removed, nothing else. */
  function RStripSlash(s: string): (r: string)
    ensures |r| <= |s| && r == s[..|r|]
    ensures r == [] || r[|r| - 1] != '/'
    ensures forall i :: |r| <= i < |s| ==> s[i] == '/'
  {
    if |s| > 0 && s[|s| - 1] == '/' then RStripSlash(s[..|s| - 1]) else s
  }

  /** `s.split("/")[-1]`: the part after the last slash, or all of `s` when it has none. */
  function LastSegment(s: string): (r: string)
    ensures '/' !in r
    ensures EndsWith(s, r)
    ensures |r| < |s| ==> s[|s| - |r| - 1] == '/'
  {
    if |s| == 0 || s[|s| - 1] == '/' then ""
    else
      var init := s[..|s| - 1];
      var r' := LastSegment(init);
      assert s[|s| - |r'| - 1..] == init[|init| - |r'|..] + [s[|s| - 1]];
      r' + [s[|s| - 1]]
  }

  /** Splitting after a slash yields exactly the slash-free tail. */
  lemma {:induction false} LastSegmentAfterSlash(head: string, tail: string)
    requires '/' !in tail
    ensures LastSegment(head + "/" + tail) == tail
  {
    var s := head + "/" + tail;
    if tail == [] {
      assert s[|s| - 1] == '/';
    } else {
      var init := tail[..|tail| - 1];
      assert s[..|s| - 1] == head + "/" + init;
      assert s[|s| - 1] == tail[|tail| - 1];
      LastSegmentAfterSlash(head, init);
      assert init + [tail[|tail| - 1]] == tail;
    }
  }

  /** Lower-casing of one ASCII letter; every other character is kept. */
  function LowerChar(c: char): char {
    if 'A' <= c <= 'Z' then (c as int - 'A' as int + 'a' as int) as char else c
  }

  /** `s.lower()` restricted to ASCII letters. */
  function Lower(s: string): string {
    seq(|s|, i requires 0 <= i < |s| => LowerChar(s[i]))
  }

  predicate IsLowerAsciiWord(t: string) {
    forall i :: 0 <= i < |t| ==> 'a' <= t[i] <= 'z'
  }

  function UpperChar(c: char): char
    requires 'a' <= c <= 'z'
  {
    (c as int - 'a' as int + 'A' as int) as char
  }

  /** `s` spells the lower-case word `t` in some mix of letter cases. */
  predicate EqualsIgnoringCase(s: string, t: string)
    requires IsLowerAsciiWord(t)
  {
    |s| == |t| && forall i :: 0 <= i < |t| ==> s[i] == t[i] || s[i] == UpperChar(t[i])
  }

  /** Comparing `s.lower()` with a lower-case word accepts exactly the
      spellings of that word that differ only in letter case. */
  lemma LowerMatchesIgnoringCase(s: string, t: string)
    requires IsLowerAsciiWord(t)
    ensures Lower(s) == t <==> EqualsIgnoringCase(s, t)
  {
    if EqualsIgnoringCase(s, t) {
      forall i | 0 <= i < |t| ensures Lower(s)[i] == t[i] {
        assert LowerChar(s[i]) == t[i];
      }
    }
    if Lower(s) == t {
      forall i | 0 <= i < |t| ensures s[i] == t[i] || s[i] == UpperChar(t[i]) {
        assert LowerChar(s[i]) == t[i];
      }
    }
  }

  predicate IsDigits(s: string) {
    forall i :: 0 <= i < |s| ==> '0' <= s[i] <= '9'
  }

  function DigitChar(d: nat): (c: char)
    requires d < 10
  {
    ('0' as int + d) as char
  }

  /** `str(n)` for a natural number: decimal digits without leading zeros. */
  function NatToDecimal(n: nat): (r: string)
    ensures |r| >= 1 && IsDigits(r)
    ensures r[0] == '0' ==> n == 0
  {
    if n < 10 then [DigitChar(n)] else NatToDecimal(n / 10) + [DigitChar(n % 10)]
  }

  /** The number that a string of decimal digits denotes. */
  function DecimalValue(s: string): nat
    requires IsDigits(s)
  {
    if s == [] then 0 else DecimalValue(s[..|s| - 1]) * 10 + (s[|s| - 1] as int - '0' as int)
  }

  lemma {:induction false} DecimalRoundTrip(n: nat)
    ensures DecimalValue(NatToDecimal(n)) == n
  {
    if n >= 10 {
      var r := NatToDecimal(n);
      assert r[..|r| - 1] == NatToDecimal(n / 10);
      DecimalRoundTrip(n / 10);
    }
  }

  /** `str(n)` for any integer: a minus sign before the digits when negative. */
  function IntToString(n: int): string {
    if n < 0 then "-" + NatToDecimal(-n) else NatToDecimal(n)
  }

  /** Text that `str` produces for some integer. */
  predicate IsIntText(s: string) {
    (|s| >= 2 && s[0] == '-' && IsDigits(s[1..])) || (|s| >= 1 && IsDigits(s))
  }

  /** `int(s)` on such text. */
  function ParseInt(s: string): int
    requires IsIntText(s)
  {
    if s[0] == '-' then -(DecimalValue(s[1..]) as int) else DecimalValue(s)
  }

  /** Printing an integer and reading it back gives the integer. */
  lemma {:induction false} IntRoundTrip(n: int)
    ensures IsIntText(IntToString(n)) && ParseInt(IntToString(n)) == n
  {
    var s := IntToString(n);
    if n < 0 {
      var t := NatToDecimal(-n);
      assert s[1..] == t;
      DecimalRoundTrip(-n);
    } else {
      assert '0' <= s[0] <= '9';
      DecimalRoundTrip(n);
    }
  }
}

=== FILE: ui_harness.dfy ===
/** The UI test harness: browser and headless resolution, the Chrome driver
    fixture, best-effort capture of the browser state, the environment
    manifest with its branch derivation, the per-test labels and the
    failure hook. */
module UiHarness {
  import opened Wrappers
  import opened Strings
  import opened Configuration
  import opened Evidence
  import opened RunContext

  // ------------------------------------------------ browser and headless

  const Chrome := "chrome"

  /** The browser asked for: the `--browser` option (`None` when it is not
      given, so its default `chrome` applies), else `BROWSER`, else `chrome`.
      Because the option has a non-empty default, `BROWSER` is read only when
      the option is given explicitly as the empty string. */
  function Browser(cliBrowser: Option<string>, env: Env): (b: string)
    ensures cliBrowser != Some("") ==> b == cliBrowser.GetOr(Chrome)
    ensures cliBrowser == Some("") ==> b == GetEnv(env, "BROWSER", Chrome)
  {
    OrElse(Some(cliBrowser.GetOr(Chrome)), GetEnv(env, "BROWSER", Chrome))
  }

  /** Headless: the `--headless` flag, or `HEADLESS` lower-cased equal to
      `true`; so headless mode is on exactly when the flag is given or
      `HEADLESS` is set to `true` in any letter case (unset counts as `false`). */
  function Headless(cliHeadless: bool, env: Env): (h: bool)
    ensures h <==> cliHeadless || ("HEADLESS" in env && EqualsIgnoringCase(env["HEADLESS"], "true"))
  {
    LowerMatchesIgnoringCase(GetEnv(env, "HEADLESS", "false"), "true");
    assert !EqualsIgnoringCase("false", "true");
    cliHeadless || Lower(GetEnv(env, "HEADLESS", "false")) == "true"
  }

  /** The browser check accepts `chrome` in any letter case and nothing else. */
  lemma SupportedBrowserIsChrome(browser: string)
    ensures Lower(browser) == Chrome <==> EqualsIgnoringCase(browser, Chrome)
  {
    LowerMatchesIgnoringCase(browser, Chrome);
  }

  /** Chrome's launch arguments: sandboxing and shared memory always off,
      headless rendering added exactly when headless is asked for. */
  function ChromeArguments(headless: bool): (args: seq<string>)
    ensures |args| == if headless then 3 else 2
    ensures args[..2] == ["--no-sandbox", "--disable-dev-shm-usage"]
    ensures "--headless=new" in args <==> headless
  {
    ["--no-sandbox", "--disable-dev-shm-usage"] + (if headless then ["--headless=new"] else [])
  }

  // ------------------------------------------------------------ driver

  /** A running browser as the capture code sees it: what reading each
      property would give (a value, or the error it raises), whether the
      driver offers `get_log`, and whether `quit` succeeds. */
  datatype Driver = Driver(
    screenshot: Result<seq<bv8>, string>,
    pageSource: Result<string, string>,
    currentUrl: Result<string, string>,
    title: Result<string, string>,
    hasGetLog: bool,
    browserLog: Result<seq<LogEntry>, string>,
    quitSucceeds: bool)

  /** How the driver is started: the launch arguments, whether
      webdriver-manager installs the driver binary, whether console logging
      capabilities are passed. */
  datatype LaunchRequest = LaunchRequest(arguments: seq<string>, viaDriverManager: bool, loggingCapabilities: bool)

  /** Installing and starting the driver: a running driver or the error raised. */
  type Launcher = LaunchRequest -> Result<Driver, string>

  function UnsupportedBrowserMessage(browser: string): string {
    "Only chrome is supported in this conftest (requested: " + browser + ")"
  }

  const DriverStartMessage :=
    "Failed to create Chrome WebDriver. Ensure Chrome/Chromedriver are installed or install webdriver-manager. Original error: "

  /** The `driver` fixture up to the test: an unsupported browser fails before
      anything is launched (whatever `launch` would do); a failed launch fails
      with the fixed message followed by the original one. */
  method AcquireDriver(cliBrowser: Option<string>, cliHeadless: bool, env: Env,
                       managerAvailable: bool, capabilitiesAvailable: bool, launch: Launcher)
    returns (r: Result<Driver, string>)
    ensures Lower(Browser(cliBrowser, env)) != Chrome ==>
              r == Failure(UnsupportedBrowserMessage(Browser(cliBrowser, env)))
    ensures Lower(Browser(cliBrowser, env)) == Chrome ==>
              var request := LaunchRequest(ChromeArguments(Headless(cliHeadless, env)), managerAvailable, capabilitiesAvailable);
              match launch(request)
              case Success(d) => r == Success(d)
              case Failure(e) => r == Failure(DriverStartMessage + e)
  {
    var browser := OrElse(Some(cliBrowser.GetOr(Chrome)), GetEnv(env, "BROWSER", Chrome));
    var headless := cliHeadless || Lower(GetEnv(env, "HEADLESS", "false")) == "true";
    if Lower(browser) != Chrome {
      return Failure(UnsupportedBrowserMessage(browser));
    }
    var arguments := [];
    arguments := arguments + ["--no-sandbox"];
    arguments := arguments + ["--disable-dev-shm-usage"];
    if headless {
      arguments := arguments + ["--headless=new"];
    }
    assert browser == Browser(cliBrowser, env) && headless == Headless(cliHeadless, env);
    assert arguments == ChromeArguments(headless);
    var started := launch(LaunchRequest(arguments, managerAvailable, capabilitiesAvailable));
    match started
    case Success(d) =>
      r := Success(d);
    case Failure(e) =>
      r := Failure(DriverStartMessage + e);
  }

  /** The driver held by a test from setup to teardown. */
  class DriverSession {
    const driver: Driver
    var running: bool

    constructor (driver: Driver)
      ensures this.driver == driver && running
    {
      this.driver := driver;
      running := true;
    }

    /** Teardown of the `driver` fixture: `quit` is always attempted and a
        failing `quit` is swallowed, leaving the browser as it was. */
    method Teardown()
      modifies this`running
      ensures running == (old(running) && !driver.quitSucceeds)
    {
      if driver.quitSucceeds {
        running := false;
      }
    }
  }

  // ---------------------------------------------------- browser state

  const CaptureNames := ["screenshot", "page_source", "page_info", "browser_logs"]

  function PageInfo(url: string, title: string): string {
    "URL: " + url + "\nTitle: " + title
  }

  /** Position of a capture step in `_attach_browser_state`. */
  function CaptureRank(name: string): nat {
    if name == "screenshot" then 0
    else if name == "page_source" then 1
    else if name == "page_info" then 2
    else 3
  }

  /** `a` is what the capture step of its name attaches for driver `d`. */
  predicate IsCaptureOf(d: Driver, a: Attachment) {
    (a.name == "screenshot" ==>
       d.screenshot.Success? && a == Attachment("screenshot", PNG, Bytes(d.screenshot.value))) &&
    (a.name == "page_source" ==>
       d.pageSource.Success? && a == Attachment("page_source", HTML, Chars(d.pageSource.value))) &&
    (a.name == "page_info" ==>
       d.currentUrl.Success? && d.title.Success? &&
       a == Attachment("page_info", TEXT, Chars(PageInfo(d.currentUrl.value, d.title.value)))) &&
    (a.name == "browser_logs" ==>
       d.browserLog.Success? && a == Attachment("browser_logs", JSON, LogDump(d.browserLog.value)))
  }

  /** The attachments come in the order of the capture steps, each step at most once. */
  predicate InStepOrder(s: seq<Attachment>) {
    forall i, j :: 0 <= i < j < |s| ==> CaptureRank(s[i].name) < CaptureRank(s[j].name)
  }

  function ScreenshotCapture(d: Driver): (c: seq<Attachment>)
    ensures |c| <= 1 && (c != [] <==> d.screenshot.Success?)
    ensures forall a :: a in c ==> a.name == "screenshot" && IsCaptureOf(d, a)
  {
    match d.screenshot
    case Success(png) => [Attachment("screenshot", PNG, Bytes(png))]
    case Failure(_) => []
  }

  function PageSourceCapture(d: Driver): (c: seq<Attachment>)
    ensures |c| <= 1 && (c != [] <==> d.pageSource.Success?)
    ensures forall a :: a in c ==> a.name == "page_source" && IsCaptureOf(d, a)
  {
    match d.pageSource
    case Success(src) => [Attachment("page_source", HTML, Chars(src))]
    case Failure(_) => []
  }

  function PageInfoCapture(d: Driver): (c: seq<Attachment>)
    ensures |c| <= 1 && (c != [] <==> d.currentUrl.Success? && d.title.Success?)
    ensures forall a :: a in c ==> a.name == "page_info" && IsCaptureOf(d, a)
  {
    if d.currentUrl.Success? && d.title.Success?
    then [Attachment("page_info", TEXT, Chars(PageInfo(d.currentUrl.value, d.title.value)))]
    else []
  }

  /** The console log: attached only when it can be read and is non-empty. */
  function LogsCapture(d: Driver): (c: seq<Attachment>)
    ensures |c| <= 1 && (c != [] <==> d.hasGetLog && d.browserLog.Success? && d.browserLog.value != [])
    ensures forall a :: a in c ==> a.name == "browser_logs" && IsCaptureOf(d, a)
  {
    if d.hasGetLog && d.browserLog.Success? && d.browserLog.value != []
    then [Attachment("browser_logs", JSON, LogDump(d.browserLog.value))]
    else []
  }

  /** A later step's capture after earlier steps' captures keeps step order. */
  lemma StepOrderExtends(s: seq<Attachment>, t: seq<Attachment>, k: nat)
    requires InStepOrder(s) && forall a :: a in s ==> CaptureRank(a.name) < k
    requires |t| <= 1 && forall a :: a in t ==> CaptureRank(a.name) == k
    ensures InStepOrder(s + t)
  {
    forall i, j | 0 <= i < j < |s + t|
      ensures CaptureRank((s + t)[i].name) < CaptureRank((s + t)[j].name)
    {
      if j >= |s| {
        assert (s + t)[i] == s[i] && (s + t)[j] == t[j - |s|];
        assert s[i] in s && t[j - |s|] in t;
      }
    }
  }

  /** The captures of all four steps, step after step. */
  lemma CapturesInStepOrder(d: Driver)
    ensures InStepOrder(ScreenshotCapture(d) + PageSourceCapture(d) + PageInfoCapture(d) + LogsCapture(d))
  {
    var c1, c2, c3, c4 := ScreenshotCapture(d), PageSourceCapture(d), PageInfoCapture(d), LogsCapture(d);
    StepOrderExtends(c1, c2, 1);
    StepOrderExtends(c1 + c2, c3, 2);
    StepOrderExtends(c1 + c2 + c3, c4, 3);
  }

  /** The attachments the four capture steps produce, in step order; a step
      that raises produces nothing and does not affect the others. */
  function BrowserStateCaptures(driver: Option<Driver>): (r: seq<Attachment>)
    ensures driver.None? ==> r == []
    ensures |r| <= 4
    ensures forall a :: a in r ==> a.name in CaptureNames
    ensures InStepOrder(r)
    ensures driver.Some? ==> forall a :: a in r ==> IsCaptureOf(driver.value, a)
    ensures driver.Some? ==>
              ((exists a :: a in r && a.name == "screenshot") <==> driver.value.screenshot.Success?) &&
              ((exists a :: a in r && a.name == "page_source") <==> driver.value.pageSource.Success?) &&
              ((exists a :: a in r && a.name == "page_info") <==> driver.value.currentUrl.Success? && driver.value.title.Success?) &&
              ((exists a :: a in r && a.name == "browser_logs") <==>
                 driver.value.hasGetLog && driver.value.browserLog.Success? && driver.value.browserLog.value != [])
  {
    match driver
    case None => []
    case Some(d) =>
      CapturesInStepOrder(d);
      ScreenshotCapture(d) + PageSourceCapture(d) + PageInfoCapture(d) + LogsCapture(d)
  }

  /** A console log that cannot be read leaves the other three captures in place. */
  lemma FailingLogKeepsOtherCaptures(d: Driver, png: seq<bv8>, src: string, url: string, title: string)
    requires d.screenshot == Success(png) && d.pageSource == Success(src)
    requires d.currentUrl == Success(url) && d.title == Success(title)
    requires d.browserLog.Failure?
    ensures BrowserStateCaptures(Some(d)) ==
              [ Attachment("screenshot", PNG, Bytes(png)),
                Attachment("page_source", HTML, Chars(src)),
                Attachment("page_info", TEXT, Chars(PageInfo(url, title))) ]
  {
  }

  /** `_attach_browser_state`: four independent best-effort steps, run only
      for a driver that is present. */
  method AttachBrowserState(driver: Option<Driver>, report: Report)
    modifies report`attachments
    ensures report.attachments == old(report.attachments) + Kept(report.accepts, BrowserStateCaptures(driver))
  {
    if driver.None? {
      assert Kept(report.accepts, BrowserStateCaptures(driver)) == [];
      return;
    }
    var d := driver.value;
    ghost var before := report.attachments;
    AttachScreenshot(d, report);
    AttachPageSource(d, report);
    AttachPageInfo(d, report);
    AttachBrowserLogs(d, report);
    assert BrowserStateCaptures(driver) == ScreenshotCapture(d) + PageSourceCapture(d) + PageInfoCapture(d) + LogsCapture(d);
    KeptOfSteps(report.accepts, before, ScreenshotCapture(d), PageSourceCapture(d), PageInfoCapture(d), LogsCapture(d));
  }

  /** Steps run one after another keep what each step keeps, in step order. */
  lemma KeptOfSteps(accepts: Attachment -> bool, before: seq<Attachment>,
                    s1: seq<Attachment>, s2: seq<Attachment>, s3: seq<Attachment>, s4: seq<Attachment>)
    ensures before + Kept(accepts, s1 + s2 + s3 + s4) ==
            before + Kept(accepts, s1) + Kept(accepts, s2) + Kept(accepts, s3) + Kept(accepts, s4)
  {
    KeptAppend(accepts, s1, s2);
    KeptAppend(accepts, s1 + s2, s3);
    KeptAppend(accepts, s1 + s2 + s3, s4);
  }

  method AttachScreenshot(d: Driver, report: Report)
    modifies report`attachments
    ensures report.attachments == old(report.attachments) + Kept(report.accepts, ScreenshotCapture(d))
  {
    if d.screenshot.Success? {
      var attached := report.Attach(Attachment("screenshot", PNG, Bytes(d.screenshot.value)));
    }
  }

  method AttachPageSource(d: Driver, report: Report)
    modifies report`attachments
    ensures report.attachments == old(report.attachments) + Kept(report.accepts, PageSourceCapture(d))
  {
    if d.pageSource.Success? {
      var attached := report.Attach(Attachment("page_source", HTML, Chars(d.pageSource.value)));
    }
  }

  /** Reading the URL and then the title; either one raising skips the step. */
  method AttachPageInfo(d: Driver, report: Report)
    modifies report`attachments
    ensures report.attachments == old(report.attachments) + Kept(report.accepts, PageInfoCapture(d))
  {
    if d.currentUrl.Success? {
      var url := d.currentUrl.value;
      if d.title.Success? {
        var attached := report.Attach(Attachment("page_info", TEXT, Chars(PageInfo(url, d.title.value))));
      }
    }
  }

  /** Collects the console log entry by entry and attaches them when there are any. */
  method AttachBrowserLogs(d: Driver, report: Report)
    modifies report`attachments
    ensures report.attachments == old(report.attachments) + Kept(report.accepts, LogsCapture(d))
  {
    if d.hasGetLog && d.browserLog.Failure? {
      return;
    }
    var logs := [];
    if d.hasGetLog {
      var entries := d.browserLog.value;
      for i := 0 to |entries|
        invariant logs == entries[..i]
      {
        logs := logs + [entries[i]];
      }
      assert entries[..|entries|] == entries;
    }
    if logs != [] {
      var attached := report.Attach(Attachment("browser_logs", JSON, LogDump(logs)));
    }
  }

  // ------------------------------------------------------------ manifest

  /** The branch name: `GIT_BRANCH`, else `GITHUB_HEAD_REF`, else the last
      `/`-separated segment of `GITHUB_REF`, else `local`; empty values count as absent. */
  function Branch(env: Env): (b: string)
    ensures IsSet(env, "GIT_BRANCH") ==> b == env["GIT_BRANCH"]
    ensures !IsSet(env, "GIT_BRANCH") && IsSet(env, "GITHUB_HEAD_REF") ==> b == env["GITHUB_HEAD_REF"]
    ensures !IsSet(env, "GIT_BRANCH") && !IsSet(env, "GITHUB_HEAD_REF") && IsSet(env, "GITHUB_REF") ==>
              b == LastSegment(env["GITHUB_REF"])
    ensures !IsSet(env, "GIT_BRANCH") && !IsSet(env, "GITHUB_HEAD_REF") && !IsSet(env, "GITHUB_REF") ==> b == "local"
  {
    var branch := Lookup(env, "GIT_BRANCH");
    var headRef := Lookup(env, "GITHUB_HEAD_REF");
    var ref := GetEnv(env, "GITHUB_REF", "");
    if Truthy(branch) then branch.value
    else if Truthy(headRef) then headRef.value
    else if ref != "" then LastSegment(ref)
    else "local"
  }

  /** A ref `<prefix>/<last>` yields only `<last>`: `refs/heads/main` gives
      `main`, but `refs/heads/feature/login` gives `login`. */
  lemma BranchFromPushedRef(env: Env, prefix: string, last: string)
    requires !IsSet(env, "GIT_BRANCH") && !IsSet(env, "GITHUB_HEAD_REF")
    requires '/' !in last && Lookup(env, "GITHUB_REF") == Some(prefix + "/" + last)
    ensures Branch(env) == last
  {
    LastSegmentAfterSlash(prefix, last);
  }

  /** `CI.Platform`: `CI` when `CI` lower-cased equals `true`, else `Local`. */
  function Platform(env: Env): (p: string)
    ensures p == "CI" || p == "Local"
  {
    if Lower(GetEnv(env, "CI", "false")) == "true" then "CI" else "Local"
  }

  /** The platform is `CI` exactly when `CI` is set to `true` in any letter case. */
  lemma PlatformResolution(env: Env)
    ensures Platform(env) == "CI" <==> "CI" in env && EqualsIgnoringCase(env["CI"], "true")
  {
    LowerMatchesIgnoringCase(GetEnv(env, "CI", "false"), "true");
    assert !EqualsIgnoringCase("false", "true");
  }

  const UiAllowList := ["BASE_URL", "SONARQUBE_URL", "SONARQUBE_USERNAME", "IMAGE_TAG", "HEADLESS"]

  /** The manifest of a UI run, line by line. */
  function UiManifest(env: Env, pythonVersion: string): (lines: seq<string>)
    ensures 7 <= |lines| <= 7 + |UiAllowList|
    ensures forall line :: line in lines ==> '=' in line
  {
    AllowListedAreAssignments(UiAllowList, env);
    [ "Test.Framework=SonarQube UI Selenium+Pytest",
      Line("CI.Platform", Platform(env)),
      "Test.Types=UI Automation",
      "Tooling=Allure Report",
      Line("GIT_BRANCH", Branch(env)),
      Line("CI", GetEnv(env, "CI", "false")),
      Line("PYTHON_VERSION", OrElse(Lookup(env, "PYTHON_VERSION"), pythonVersion)) ]
    + AllowListed(UiAllowList, env)
  }

  /** Seven fixed lines come first, then one line per set allow-listed
      variable, each exactly when its value is non-empty, in list order. */
  lemma UiManifestShape(env: Env, pythonVersion: string, key: string)
    requires key in UiAllowList
    ensures var lines := UiManifest(env, pythonVersion);
            7 <= |lines| <= 12 &&
            lines[0] == "Test.Framework=SonarQube UI Selenium+Pytest" &&
            lines[1] == Line("CI.Platform", Platform(env)) &&
            lines[2] == "Test.Types=UI Automation" &&
            lines[3] == "Tooling=Allure Report" &&
            lines[4] == Line("GIT_BRANCH", Branch(env)) &&
            lines[5] == Line("CI", GetEnv(env, "CI", "false")) &&
            lines[6] == Line("PYTHON_VERSION", OrElse(Lookup(env, "PYTHON_VERSION"), pythonVersion)) &&
            lines[7..] == AllowListed(UiAllowList, env) &&
            (Line(key, GetEnv(env, key, "")) in lines[7..] <==> IsSet(env, key))
  {
    var lines := UiManifest(env, pythonVersion);
    assert lines[7..] == AllowListed(UiAllowList, env);
    AllowListedExactly(UiAllowList, env, key);
  }

  /** `pytest_configure`: writes the manifest; when the results directory or
      file cannot be written the run goes on without one. */
  method WriteEnvironment(env: Env, pythonVersion: string, writable: bool) returns (manifest: Option<seq<string>>)
    ensures writable ==> manifest == Some(UiManifest(env, pythonVersion))
    ensures !writable ==> manifest == None
  {
    if !writable {
      return None;
    }
    var lines := ["Test.Framework=SonarQube UI Selenium+Pytest"];
    var ci := Lower(GetEnv(env, "CI", "false"));
    var platform := if ci == "true" then "CI" else "Local";
    lines := lines + [Line("CI.Platform", platform)];
    lines := lines + ["Test.Types=UI Automation"];
    lines := lines + ["Tooling=Allure Report"];
    var branch := Lookup(env, "GIT_BRANCH");
    var headRef := Lookup(env, "GITHUB_HEAD_REF");
    var ref := GetEnv(env, "GITHUB_REF", "");
    var name: string;
    if Truthy(branch) {
      name := branch.value;
    } else if Truthy(headRef) {
      name := headRef.value;
    } else if ref != "" {
      name := LastSegment(ref);
    } else {
      name := "local";
    }
    lines := lines + [Line("GIT_BRANCH", name)];
    lines := lines + [Line("CI", GetEnv(env, "CI", "false"))];
    lines := lines + [Line("PYTHON_VERSION", OrElse(Lookup(env, "PYTHON_VERSION"), pythonVersion))];
    assert lines == UiManifest(env, pythonVersion)[..7];
    lines := WriteAllowListed(lines, UiAllowList, env);
    manifest := Some(lines);
  }

  // ------------------------------------------------------------- labels

  const UiLabelSources := [
    LabelSource("BASE_URL", "base_url", "base_url"),
    LabelSource("IMAGE_TAG", "image_tag", "image_tag"),
    LabelSource("SONARQUBE_URL", "sonarqube_url", "sonarqube")]

  /** `pytest_runtest_call`: publishes `BASE_URL`, `IMAGE_TAG` and `SONARQUBE_URL` when set. */
  method RuntestCall(env: Env, report: Report)
    modifies report`publications
    ensures report.publications == old(report.publications) + Publications(UiLabelSources, env, report.publishes)
  {
    var apiBase := Lookup(env, "BASE_URL");
    var imageTag := Lookup(env, "IMAGE_TAG");
    var sonar := Lookup(env, "SONARQUBE_URL");
    ghost var p0 := report.publications;
    if Truthy(apiBase) {
      report.PublishPair(Parameter("base_url", apiBase.value), Label("base_url", apiBase.value));
    }
    ghost var p1 := report.publications;
    assert p1 == p0 + Delivered(UiLabelSources[0], env, report.publishes);
    if Truthy(imageTag) {
      report.PublishPair(Parameter("image_tag", imageTag.value), Label("image_tag", imageTag.value));
    }
    ghost var p2 := report.publications;
    assert p2 == p1 + Delivered(UiLabelSources[1], env, report.publishes);
    if Truthy(sonar) {
      report.PublishPair(Parameter("sonarqube_url", sonar.value), Label("sonarqube", sonar.value));
    }
    assert report.publications == p2 + Delivered(UiLabelSources[2], env, report.publishes);
    PublicationsOfThree(UiLabelSources[0], UiLabelSources[1], UiLabelSources[2], env, report.publishes);
    assert [UiLabelSources[0], UiLabelSources[1], UiLabelSources[2]] == UiLabelSources;
  }

  // ------------------------------------------------------- failure hook

  function TracebackAttachment(rep: TestReport): Attachment {
    Attachment("traceback", TEXT, Chars(rep.longReprText))
  }

  /** What the failure hook tries to attach: nothing unless the test body
      failed; then the browser state followed by the traceback. */
  function FailureCandidates(rep: TestReport, driver: Option<Driver>): (r: seq<Attachment>)
    ensures !IsCallFailure(rep) ==> r == []
    ensures IsCallFailure(rep) ==> |r| >= 1 && r[|r| - 1] == TracebackAttachment(rep)
    ensures IsCallFailure(rep) ==> r[..|r| - 1] == BrowserStateCaptures(driver)
  {
    if IsCallFailure(rep) then BrowserStateCaptures(driver) + [TracebackAttachment(rep)] else []
  }

  /** The traceback reaches an accepting report even when every capture step failed. */
  lemma TracebackAlwaysAttached(rep: TestReport, driver: Option<Driver>, accepts: Attachment -> bool)
    requires IsCallFailure(rep) && accepts(TracebackAttachment(rep))
    ensures TracebackAttachment(rep) in Kept(accepts, FailureCandidates(rep, driver))
  {
    KeptKeepsAccepted(accepts, FailureCandidates(rep, driver), TracebackAttachment(rep));
  }

  /** Evidence reaches the report only for a failed call, only when the sink
      accepts it, and it is either a capture of the test's driver or the traceback. */
  lemma EvidenceOnlyForFailedCall(rep: TestReport, driver: Option<Driver>, accepts: Attachment -> bool, a: Attachment)
    requires a in Kept(accepts, FailureCandidates(rep, driver))
    ensures IsCallFailure(rep) && accepts(a)
    ensures a == TracebackAttachment(rep) || (driver.Some? && a in BrowserStateCaptures(driver) && IsCaptureOf(driver.value, a))
  {
    var candidates := FailureCandidates(rep, driver);
    KeptSound(accepts, candidates, a);
    assert candidates == candidates[..|candidates| - 1] + [TracebackAttachment(rep)];
  }

  /** A report that accepts everything receives every capture and then the traceback. */
  lemma AcceptingReportGetsAllEvidence(rep: TestReport, driver: Option<Driver>, accepts: Attachment -> bool)
    requires forall a :: accepts(a)
    requires IsCallFailure(rep)
    ensures Kept(accepts, FailureCandidates(rep, driver)) == BrowserStateCaptures(driver) + [TracebackAttachment(rep)]
  {
    KeptAll(accepts, FailureCandidates(rep, driver));
  }

  /** `pytest_runtest_makereport`; `driver` is the one the fixture stored on
      the test, `None` when the fixture was not used or failed. */
  method MakeReport(rep: TestReport, driver: Option<Driver>, report: Report)
    modifies report`attachments
    ensures report.attachments == old(report.attachments) + Kept(report.accepts, FailureCandidates(rep, driver))
  {
    if rep.when == Call && rep.failed {
      AttachBrowserState(driver, report);
      var attached := report.Attach(TracebackAttachment(rep));
      KeptAppend(report.accepts, BrowserStateCaptures(driver), [TracebackAttachment(rep)]);
    }
  }
}

=== FILE: wrappers.dfy ===
/** Optional values and success-or-error results, used for Python's `None`
    and for calls that either return or raise. */
module Wrappers {

  datatype Option<+T> = None | Some(value: T) {

    /** The value when present, otherwise `default`. */
    function GetOr(default: T): T {
      if Some? then value else default
    }
  }

  /** The outcome of a call that either returns a value or raises an error. */
  datatype Result<+R, +E> = Success(value: R) | Failure(error: E)
}
